=== FILE: README.md ===
# hrs-scraper core, modelled in Dafny

The repository is a single-file Apify crawler (`src/index.js`) for a hotel-booking site. It walks the site's navigation hierarchy: home page, country lists, countries, cities and hotel details. Along the way it turns each hotel listing on a city page into a hotel record. Apart from the Apify and Cheerio plumbing, the file holds a small set of deterministic rules. This project states those rules as pure Dafny functions and methods, and proves properties about them:

- **URL normalisation** (`Url`): an href that starts with `/` gets `https://www.hrs.com` prepended, and any other string passes through. The same inline expression appears at lines 38, 48, 60, 71, 109 and 121.
- **Batched enqueueing** (`Batches`): `resolveInBatches` is modelled as a trace of `Start(op)` and `Barrier(n)` events. A handler's sequence of awaited calls is modelled as a concatenation of such traces.
- **Dispatch** (`Dispatch`): the if/else-if chain over the five `userData` flags.
- **Field derivations** (`Fields`, `Hotel`): the postal code, city, star rating, distance tokens, review count and clean name of a hotel record. Each regular expression is modelled as a "matches at position p" predicate plus a leftmost search.
- **Page handlers** (`Crawler`): the requests each page type enqueues, with their urls and the flags that will route them. It also covers the pass-through of the hotel record from the city page to the detail page.

The request queue is modelled only as the sequence of `addRequest` arguments a handler produces. CSS selections are given as sequences of element summaries. The two JSON attributes of a hotel anchor are given already parsed.

Behaviour of the code that is easy to misread:

- The city pattern looks behind for the literal text `&nbsp;`, not for a space or a non-breaking-space character. So `"12345 Springfield"` yields the postal code `12345` but the city `"12345 Springfield"`, the whole address. `Fields.PlainSpaceAddressExample` proves this.
- Target urls are not always absolute. An href that neither starts with `/` nor is absolute (`hotel.html`) is enqueued unchanged, and a missing href is passed on as a missing url.
- `reviewCount` is absent not only when there are no leading digits, but also when they read 0 (`|| undefined`).
- The home-page handler throws (`url.includes` on `undefined`, line 31) when a worldwide link has no href. It throws while building the deferred operations, so nothing is enqueued. This is modelled as `Failure(HrefMissing)`.
- On a city page, an empty-string href is falsy, so that entry also yields an already-resolved promise instead of an enqueue. It still occupies a slot in its batch.
- The city pattern's `.*$` cannot match across a line terminator, because `.` excludes line terminators and `$` is the end of the input. A match position therefore needs a line-terminator-free remainder.

## Model

| member | source | states |
|---|---|---|
| Url.Normalize | src/index.js:38 | the result never starts with `/`; it ends with the href; it equals the href exactly when the href does not start with `/`, and is otherwise the origin followed by the href |
| Url.NormalizeIdempotent | src/index.js:48 | normalising an already normalised url changes nothing |
| Url.NormalizeAttr | src/index.js:109 | a missing href stays missing (the regular-expression test of `undefined` fails); a present one is normalised and so never starts with `/` |
| Search.Contains | src/index.js:31 | `includes` holds exactly when the substring occurs at some position |
| Batches.ResolveInBatches | src/index.js:3-10 | the operations are started exactly once each, in input order; every barrier waits on every operation started before it; at no point are more than `batchLength` operations started since the last barrier; a barrier follows every start that brings the count to a multiple of `batchLength`, and every barrier except the final one sits at such a point; the trace ends with the final wait on all operations, so a batch that fills exactly is waited on twice and the trace holds one barrier per full batch plus the final one; empty input starts nothing and only waits |
| Batches.RunBatches | src/index.js:66-78 | consecutive awaited `resolveInBatches` calls: the calls' traces concatenate in call order, each call starts exactly its own operations within the batch bound, and each ends with the barrier on all of them before the next call starts any |
| Dispatch.Classify | src/index.js:22-133 | no branch runs exactly when no flag is set; otherwise the branch taken has its flag set and every flag earlier in the chain is unset |
| Dispatch.FlagsFor | src/index.js:49-51 | a target's `userData` sets exactly the flag of its page type, so the dispatcher routes it to that page type |
| Dispatch.ClassifyIgnoresLowerFlags | src/index.js:23-55 | flags later in the chain than the one that is taken do not change the branch |
| Fields.PostalCode | src/index.js:95 | absent exactly when the address (missing reads as empty) contains no five consecutive ASCII digits; otherwise it is the leftmost such run |
| Fields.AddressCity | src/index.js:96 | when five digits followed by `&nbsp;` occur with no line terminator after them, the result is the rest of the address after the leftmost such occurrence; otherwise it is the raw address, missing if that is missing |
| Fields.StarRating | src/index.js:87-88 | absent exactly when no `[0-5.]` character follows `sw-icon-stars-`; otherwise it is the maximal non-empty `[0-5.]` run after the leftmost such marker |
| Fields.DistanceToken | src/index.js:97-99 | absent exactly when no `": "` is followed by a non-empty `[0-9.]` run and `" km"`; otherwise it is the leftmost such run followed by `" km"` |
| Fields.LeadingDigits | src/index.js:104 | the longest prefix of the string made only of ASCII digits |
| Fields.ReviewCount | src/index.js:104 | present exactly when the leading digits read a positive number, which is then its value; absent for no leading digits and for a count of 0 |
| Fields.CleanName | src/index.js:93 | the click-tracking name when it is non-empty, the hotel name otherwise; truthy exactly when one of the two is |
| Fields.AddressRoundTrip | src/index.js:95-96 | an address written as five digits, `&nbsp;` and a one-line city gives back that postal code and that city |
| Fields.PlainSpaceAddressExample | src/index.js:95-96 | `"12345 Springfield"` gives the postal code `12345` but falls back to the whole address as the city |
| Fields.StarRatingRoundTrip | src/index.js:87-88 | a class string made of classes that do not contain `sw-icon-stars-`, then `sw-icon-stars-`, a rating and text not continuing it gives back that rating |
| Fields.DistanceRoundTrip | src/index.js:97-99 | `<caption>: <number> km`, with no colon in the caption, gives back `<number> km` |
| Fields.DecimalRoundTrip | src/index.js:104 | reading the decimal rendering of a number gives the number back |
| Fields.ReviewCountRoundTrip | src/index.js:104 | a positive count rendered in decimal and followed by text that does not start with a digit gives back that count |
| Hotel.RecordOf | src/index.js:84-111 | the record keeps the hotel id and name; its url is the anchor's href normalised (present exactly when the href is); the clean name, postal code, city, each of the three distances, the review count and the star rating are each read by their extractor from the matching source field (the city distance from `cityDistance`, and so on), so the clean name is truthy exactly when one of its sources is, a postal code is five digits, the city is absent only for a missing address, a review count is positive and a star rating is non-empty |
| Hotel.RecordReadsRenderedAnchor | src/index.js:87-104 | an anchor whose address is `<code>&nbsp;<city>`, whose rating element's classes end in `sw-icon-stars-<rating>` after classes free of that marker, and whose rating count starts with the count yields that postal code, city, star rating and review count |
| Hotel.RatingClassExample | src/index.js:87-88 | the element the rating selector picks carries the class `sw-hotel__rating`, which does not contain the star marker, so `sw-hotel__rating sw-icon-stars-4.5` gives the rating `4.5` |
| Hotel.RecordReadsRenderedDistances | src/index.js:93-99 | three distances rendered the site's way (`<caption>: <number> km`) land as their `<number> km` tokens in the field of the same name; a truthy click-tracking name becomes the clean name, and otherwise the hotel's name does |
| Crawler.Seeds | src/index.js:13-14 | two seed urls, `https://www.hrs.com/en/` routed to the home page and `https://www.hrs.com/en/hotel/europe/cl-k-1` routed to a country list; neither starts with `/` |
| Crawler.HomeOps | src/index.js:27-42 | fails exactly when some worldwide link has no href; otherwise one enqueue per link, in document order, with the normalised href, routed to a city exactly when the raw href contains `/d-` and to a country list exactly when it does not |
| Crawler.NavigationOps | src/index.js:45-78 | one enqueue per selected link, in document order, with the normalised href (missing stays missing), routed to the given page type |
| Crawler.HotelOps | src/index.js:83-115 | one enqueue per hotel anchor, in document order, whose payload is that anchor's record, whose url is the record's url, and which is routed to the hotel-detail handler |
| Crawler.CityPaginationOps | src/index.js:118-127 | one operation per non-ellipsis entry; it is an already-resolved promise exactly when the entry's href is missing or empty, and otherwise an enqueue routed to a city page |
| Crawler.Visible | src/index.js:118 | the `li:not(.is-ellipsis)` selector keeps no ellipsis entry and keeps every non-ellipsis one |
| Crawler.VisibleKeepsEntries | src/index.js:118 | each non-ellipsis entry occurs in the selection exactly as often as on the page, an ellipsis entry never |
| Crawler.VisibleConcat | src/index.js:118 | the selection keeps document order: selecting from two consecutive parts of the list is selecting from each part in turn |
| Crawler.CityPaginationEnqueuesTargets | src/index.js:118-127 | the requests the pagination enqueues are, in order, exactly the normalised truthy hrefs of the non-ellipsis entries, each as a city page |
| Crawler.HandlePage | src/index.js:21-133 | with no flag set nothing is enqueued or pushed; only the home page can fail, and it fails exactly when a worldwide link has no href; only the detail page pushes, and it pushes its `userData` unchanged. The home page otherwise enqueues each worldwide link's normalised url, routed to a city exactly when the raw href contains `/d-`; a country list enqueues each country's normalised href as a country; a country page enqueues each top location's as a city and then each pagination link's as a country; a city page enqueues one hotel-detail target per anchor, carrying that anchor's record, and then the pagination operations of its entries |
| Crawler.CityPageEnqueues | src/index.js:79-127 | a city page's first call enqueues one detail target per anchor with its record; its second call enqueues exactly the normalised truthy hrefs of the non-ellipsis pagination entries, in order, each as a city page |
| Crawler.HotelDetailPushesRecord | src/index.js:128-132 | the detail request built for an anchor is handled by pushing its `userData`, which holds that anchor's record, unchanged, and enqueueing nothing |
| Crawler.CrawlPage | src/index.js:55-127 | handling a page starts exactly the handler's operations in order, one awaited call per batch, and every call starts at most 10 operations between barriers and ends with its barrier on all of them; on a country page the first call runs exactly the top-location targets and completes before the second call starts anything, and the second call runs exactly the pagination targets; a city page does the same with its hotel-detail targets and then its pagination operations; with no flag set nothing happens |
| Crawler.HomePageExample | src/index.js:27-42 | worldwide links `/d-123` and `/europe` yield a city target `https://www.hrs.com/d-123` and then a country-list target `https://www.hrs.com/europe` |
| Crawler.EmptyCityPageExample | src/index.js:79-127 | a city page with no hotel anchors and no pagination entries enqueues and pushes nothing |

## Left out

- The Apify runtime: `Apify.main`, `openRequestQueue`, the `CheerioCrawler` configuration (proxy group, concurrency bounds), `crawler.run`, `console.log` and `createRequestDebugInfo`. These are I/O and library calls. The queue appears only as the `addRequest` arguments, and its URL de-duplication is the queue's own behaviour, not visible in this code.
- What `addRequest` does with a missing url. The model passes the missing url on, as the source does, and stops there.
- Cheerio selector evaluation and HTML parsing, and `JSON.parse` of `data-gtm-click` and `data-hotel-item`, including its exceptions. This is library behaviour; selections and parsed objects are inputs.
- Fields.DistanceToken: models only the matched `[0-9.]+ km` token, not the `parseFloat(...) || undefined` conversion of `cityDistance`, `airportDistance` and `trainStationDistance`, because that is floating point.
- `reviewRating` (`parseFloat(ratingAverage) || undefined`): floating point.
- Fields.ReviewCount: reads the digits as an exact natural number. `parseFloat` would round runs longer than about 15 digits, and that rounding is not modelled.
- `lat`, `lon` and `thumbUrl`: straight copies of parsed fields with nothing to state. `priceTag`: a template string over possibly undefined values whose rendering is JavaScript's.
- JSON value types: the hotel id, name, address and the other parsed fields are modelled as optional strings. A non-string `address` or `ratingCount` would make `.match` throw in the source, and that is not modelled.
- The failed-request handler (lines 137-142): logging and a dataset push only.
- Batches.ResolveInBatches: requires `batchLength >= 1`. With 0, `%` yields `NaN` and no intermediate barriers occur (the final wait on all of them still does); every call in the source uses the default of 10. Real promise concurrency and rejection propagation are not modelled, only the start/barrier event order.

=== FILE: batches.dfy ===
/** `resolveInBatches` (src/index.js:3-10) as a trace of events. The loop
    calls the deferred operations in order, pushes each pending promise, and
    after every push that brings the count to a multiple of the batch length
    awaits `Promise.all` of every promise started so far; it then returns
    `Promise.all` of all of them, which the caller awaits. */
module Batches {

  /** The batch length used when the caller passes none. */
  const DefaultBatchLength: nat := 10

  /** `Start(op)`: the deferred operation `op` is called. `Barrier(n)`: a wait
      on all `n` promises in the array at that point. */
  datatype Event<T> = Start(op: T) | Barrier(covered: nat)

  /** The operations a trace starts, in the order it starts them. */
  function Started<T>(trace: seq<Event<T>>): seq<T>
    decreases |trace|
  {
    if trace == [] then []
    else
      var last := trace[|trace| - 1];
      Started(trace[..|trace| - 1]) + (if last.Start? then [last.op] else [])
  }

  /** The operations started since the last barrier (all of them if there
      was none). */
  function Pending<T>(trace: seq<Event<T>>): nat
    decreases |trace|
  {
    if trace == [] || trace[|trace| - 1].Barrier? then 0
    else Pending(trace[..|trace| - 1]) + 1
  }

  /** The trace without its last event. */
  function Init<T>(trace: seq<Event<T>>): seq<Event<T>>
    requires trace != []
  {
    trace[..|trace| - 1]
  }

  /** Every barrier waits on every operation started before it. */
  ghost predicate BarriersCoverStarted<T>(trace: seq<Event<T>>)
    decreases |trace|
  {
    trace == [] ||
      (BarriersCoverStarted(Init(trace)) &&
       (trace[|trace| - 1].Barrier? ==> trace[|trace| - 1].covered == |Started(Init(trace))|))
  }

  /** At no point are more than `b` operations started since the last
      barrier. */
  ghost predicate WithinBatch<T>(trace: seq<Event<T>>, b: nat)
    decreases |trace|
  {
    Pending(trace) <= b && (trace == [] || WithinBatch(Init(trace), b))
  }

  /** A start that brings the count to a multiple of `b` is followed at once
      by a barrier (unless it is the last event so far). */
  ghost predicate BarrierAfterEachBatch<T>(trace: seq<Event<T>>, b: nat)
    requires b >= 1
    decreases |trace|
  {
    trace == [] ||
      (BarrierAfterEachBatch(Init(trace), b) &&
       (var before := Init(trace);
        before != [] && before[|before| - 1].Start? && |Started(before)| % b == 0 ==>
          trace[|trace| - 1].Barrier?))
  }

  /** Every barrier directly follows a start that brought the count to a
      multiple of `b`. */
  ghost predicate BarriersAtBatchEnds<T>(trace: seq<Event<T>>, b: nat)
    requires b >= 1
    decreases |trace|
  {
    trace == [] ||
      (BarriersAtBatchEnds(Init(trace), b) &&
       (var before := Init(trace);
        trace[|trace| - 1].Barrier? ==>
          before != [] && before[|before| - 1].Start? && |Started(before)| % b == 0))
  }

  /** Appending one event extends `Started` and `Pending` by that event. */
  lemma StartedAppend<T>(trace: seq<Event<T>>, e: Event<T>)
    ensures Init(trace + [e]) == trace
    ensures Started(trace + [e]) == Started(trace) + (if e.Start? then [e.op] else [])
    ensures Pending(trace + [e]) == if e.Barrier? then 0 else Pending(trace) + 1
  {
    assert (trace + [e])[..|trace|] == trace;
  }

  lemma MulAtLeast(k: int, b: int)
    requires k >= 1 && b >= 1
    ensures k * b >= b
  {
  }

  /** Euclidean division is determined by quotient and remainder. */
  lemma ModUnique(n: int, b: int, q: int, r: int)
    requires b >= 1 && 0 <= r < b && n == q * b + r
    ensures n % b == r && n / b == q
  {
    var q', r' := n / b, n % b;
    assert n == q' * b + r';
    assert (q - q') * b == r' - r;
    if q - q' >= 1 {
      MulAtLeast(q - q', b);
      assert false;
    } else if q' - q >= 1 {
      MulAtLeast(q' - q, b);
      assert false;
    }
  }

  lemma ModSuccessor(n: nat, b: nat)
    requires b >= 1
    ensures (n + 1) % b == if n % b + 1 == b then 0 else n % b + 1
    ensures (n + 1) / b == if n % b + 1 == b then n / b + 1 else n / b
  {
    var q, r := n / b, n % b;
    assert n == q * b + r;
    if r + 1 == b {
      assert n + 1 == (q + 1) * b + 0;
      ModUnique(n + 1, b, q + 1, 0);
    } else {
      ModUnique(n + 1, b, q, r + 1);
    }
  }

  /** What holds of the trace at the head of every loop iteration. */
  ghost predicate LoopInvariant<T>(trace: seq<Event<T>>, b: nat)
    requires b >= 1
  {
    && Pending(trace) == |Started(trace)| % b
    && (trace != [] && trace[|trace| - 1].Start? ==> |Started(trace)| % b != 0)
    && BarriersCoverStarted(trace)
    && WithinBatch(trace, b)
    && BarrierAfterEachBatch(trace, b)
    && BarriersAtBatchEnds(trace, b)
  }

  /** A start that does not complete a batch keeps the invariant. */
  lemma StepStart<T>(trace: seq<Event<T>>, x: T, b: nat)
    requires b >= 1 && LoopInvariant(trace, b)
    requires (|Started(trace)| + 1) % b != 0
    ensures LoopInvariant(trace + [Start(x)], b)
  {
    StartedAppend(trace, Start(x));
    ModSuccessor(|Started(trace)|, b);
  }

  /** A start that completes a batch, followed by its barrier, keeps the
      invariant. */
  lemma StepStartAndBarrier<T>(trace: seq<Event<T>>, x: T, b: nat)
    requires b >= 1 && LoopInvariant(trace, b)
    requires (|Started(trace)| + 1) % b == 0
    ensures LoopInvariant(trace + [Start(x)] + [Barrier(|Started(trace)| + 1)], b)
  {
    var t1 := trace + [Start(x)];
    StartedAppend(trace, Start(x));
    StartedAppend(t1, Barrier(|Started(trace)| + 1));
    ModSuccessor(|Started(trace)|, b);
  }

  /** Runs the deferred operations `ops` as `resolveInBatches(ops,
      batchLength)` does and returns the events it performs. */
  method ResolveInBatches<T>(ops: seq<T>, batchLength: nat) returns (trace: seq<Event<T>>)
    requires batchLength >= 1
    ensures Started(trace) == ops
    ensures BarriersCoverStarted(trace)
    ensures WithinBatch(trace, batchLength)
    ensures BarrierAfterEachBatch(trace, batchLength)
    ensures |trace| > 0 && trace[|trace| - 1] == Barrier(|ops|)
    ensures BarriersAtBatchEnds(Init(trace), batchLength)
    ensures ops == [] ==> trace == [Barrier(0)]
    ensures |trace| == |ops| + |ops| / batchLength + 1
  {
    trace := [];
    for i := 0 to |ops|
      invariant Started(trace) == ops[..i]
      invariant LoopInvariant(trace, batchLength)
      invariant |trace| == i + i / batchLength
    {
      ModSuccessor(i, batchLength);
      assert ops[..i + 1] == ops[..i] + [ops[i]];
      StartedAppend(trace, Start(ops[i]));
      if (i + 1) % batchLength == 0 {
        StepStartAndBarrier(trace, ops[i], batchLength);
        StartedAppend(trace + [Start(ops[i])], Barrier(i + 1));
        trace := trace + [Start(ops[i])] + [Barrier(i + 1)];
      } else {
        StepStart(trace, ops[i], batchLength);
        trace := trace + [Start(ops[i])];
      }
    }
    assert ops[..|ops|] == ops;
    StartedAppend(trace, Barrier(|ops|));
    trace := trace + [Barrier(|ops|)];
  }

  /** `Started` distributes over concatenation. */
  lemma {:induction false} StartedConcat<T>(a: seq<Event<T>>, b: seq<Event<T>>)
    ensures Started(a + b) == Started(a) + Started(b)
    decreases |b|
  {
    if b == [] {
      assert a + b == a;
    } else {
      var last := b[|b| - 1];
      assert a + b == (a + Init(b)) + [last];
      assert b == Init(b) + [last];
      StartedAppend(a + Init(b), last);
      StartedAppend(Init(b), last);
      StartedConcat(a, Init(b));
    }
  }

  /** The operations of several calls, in call order. */
  function Flatten<T>(batches: seq<seq<T>>): seq<T>
    decreases |batches|
  {
    if batches == [] then [] else Flatten(batches[..|batches| - 1]) + batches[|batches| - 1]
  }

  /** `call` is the trace of one `resolveInBatches(ops, b)` call: it starts
      exactly `ops`, in order, never more than `b` since a barrier, and ends
      with the barrier on all of them. */
  ghost predicate Completes<T>(call: seq<Event<T>>, ops: seq<T>, b: nat) {
    && Started(call) == ops
    && WithinBatch(call, b)
    && |call| > 0
    && call[|call| - 1] == Barrier(|ops|)
  }

  lemma FlattenSnoc<T>(bs: seq<seq<T>>, b: seq<T>)
    ensures Flatten(bs + [b]) == Flatten(bs) + b
  {
    assert (bs + [b])[..|bs|] == bs;
  }

  /** Several `await resolveInBatches(...)` calls one after the other, as a
      page handler makes them: returns the events of each call and the
      events of all of them in order. Each call's events end with the
      barrier on all of its operations before the next call starts any. */
  method RunBatches<T>(batches: seq<seq<T>>, batchLength: nat) returns (trace: seq<Event<T>>, calls: seq<seq<Event<T>>>)
    requires batchLength >= 1
    ensures |calls| == |batches|
    ensures trace == Flatten(calls)
    ensures Started(trace) == Flatten(batches)
    ensures forall k :: 0 <= k < |batches| ==> Completes(calls[k], batches[k], batchLength)
  {
    trace := [];
    calls := [];
    for k := 0 to |batches|
      invariant |calls| == k
      invariant trace == Flatten(calls)
      invariant Started(trace) == Flatten(batches[..k])
      invariant forall j :: 0 <= j < k ==> Completes(calls[j], batches[j], batchLength)
    {
      var t := ResolveInBatches(batches[k], batchLength);
      StartedConcat(trace, t);
      assert batches[..k + 1] == batches[..k] + [batches[k]];
      FlattenSnoc(batches[..k], batches[k]);
      FlattenSnoc(calls, t);
      trace := trace + t;
      calls := calls + [t];
    }
    assert batches[..|batches|] == batches;
  }
}

=== FILE: crawler.dfy ===
/** The page handling of the crawler (src/index.js:11-133): the seed
    requests, the five page handlers selected by the `userData` flags, and
    a page run that awaits each handler's `resolveInBatches` calls in turn.
    The request queue appears only as the `addRequest` calls a handler
    makes; the CSS selections are given as sequences of element summaries. */
module Crawler {
  import opened Wrappers
  import opened Url
  import opened Search
  import opened Dispatch
  import opened Hotel
  import opened Fields
  import opened Batches

  /** A request's `userData`: its flags and, for a hotel-detail target, the
      hotel record stored with it. */
  datatype UserData = UserData(flags: Flags, hotel: Option<HotelRecord>)

  /** The argument of one `requestQueue.addRequest` call. The url is missing
      when the element it was read from had no href. */
  datatype Request = Request(url: Option<string>, userData: UserData)

  /** One deferred operation handed to `resolveInBatches`: an `addRequest`
      call, or the already-resolved promise a city-page pagination entry
      without an href yields. */
  datatype Op = AddRequest(request: Request) | Resolved

  /** What one page handler does: its `resolveInBatches` calls in order, and
      the records it pushes to the dataset. */
  datatype Effect = Effect(batches: seq<seq<Op>>, pushed: seq<UserData>)

  /** One `#pagesListAll li` element of a city page. */
  datatype PaginationItem = PaginationItem(isEllipsis: bool, href: Option<string>)

  /** The element selections the handlers read from a fetched page, in
      document order. */
  datatype Dom = Dom(
    worldwideLinks: seq<Option<string>>,
    countryListItems: seq<Option<string>>,
    topLocationLinks: seq<Option<string>>,
    countryPaginationLinks: seq<Option<string>>,
    hotelAnchors: seq<HotelAnchor>,
    cityPaginationItems: seq<PaginationItem>)

  /** The home-page handler throws (`url.includes` on `undefined`) when a
      worldwide link has no href. */
  datatype HandlerError = HrefMissing

  /** The `userData` of a navigation target of type `k`. */
  function Navigation(k: PageKind): UserData {
    UserData(FlagsFor(k), None)
  }

  /** The operation enqueues a request that will be handled as a page of
      type `k`. */
  predicate RoutesTo(op: Op, k: PageKind) {
    op.AddRequest? && Classify(op.request.userData.flags) == Some(k)
  }

  /** The two requests the crawl starts from (src/index.js:13-14). */
  function Seeds(): (r: seq<Request>)
    ensures |r| == 2
    ensures Classify(r[0].userData.flags) == Some(HomePage)
    ensures Classify(r[1].userData.flags) == Some(CountryList)
    ensures forall i :: 0 <= i < |r| ==> r[i].url.Some? && !IsRootRelative(r[i].url.value)
    ensures r[0].url == Some("https://www.hrs.com/en/")
    ensures r[1].url == Some("https://www.hrs.com/en/hotel/europe/cl-k-1")
  {
    [ Request(Some("https://www.hrs.com/en/"), Navigation(HomePage)),
      Request(Some("https://www.hrs.com/en/hotel/europe/cl-k-1"), Navigation(CountryList)) ]
  }

  // Navigation pages

  /** The tag a home-page link gets: a city when its raw href contains
      `/d-`, a country list otherwise. */
  function HomeTag(href: string): PageKind {
    if Contains(href, "/d-") then City else CountryList
  }

  /** `op` is the home handler's operation for the link `href`: an enqueue
      of its normalised url, routed to a city page exactly when the raw
      href contains `/d-` and to a country list otherwise. */
  predicate HomeOpFor(href: string, op: Op) {
    && op.AddRequest?
    && op.request.url == Some(Normalize(href))
    && op.request.userData == Navigation(HomeTag(href))
    && (RoutesTo(op, City) <==> Contains(href, "/d-"))
    && (RoutesTo(op, CountryList) <==> !Contains(href, "/d-"))
  }

  /** `ops` are the home handler's operations for `links`: one per link, in
      order, each link having an href. */
  predicate HomeTargets(ops: seq<Op>, links: seq<Option<string>>) {
    && |ops| == |links|
    && forall i :: 0 <= i < |links| ==> links[i].Some? && HomeOpFor(links[i].value, ops[i])
  }

  /** The enqueue the home handler makes for the link `href`. */
  function HomeOp(href: string): Op {
    AddRequest(Request(Some(Normalize(href)), Navigation(HomeTag(href))))
  }

  lemma HomeOpTagged(href: string)
    ensures HomeOpFor(href, HomeOp(href))
  {
  }

  /** Appending one link with an href extends the home handler's
      operations by that link's enqueue. */
  lemma HomeOpsStep(init: seq<Option<string>>, ops: seq<Op>, h: string)
    requires HomeTargets(ops, init)
    ensures HomeTargets(ops + [HomeOp(h)], init + [Some(h)])
  {
    var links, r := init + [Some(h)], ops + [HomeOp(h)];
    forall i | 0 <= i < |links|
      ensures links[i].Some? && HomeOpFor(links[i].value, r[i])
    {
      if i < |init| {
        assert links[i] == init[i] && r[i] == ops[i];
      } else {
        HomeOpTagged(h);
      }
    }
  }

  /** The home-page handler's operations: one per worldwide link, in
      document order; it throws before enqueuing anything if a link has no
      href. */
  function HomeOps(links: seq<Option<string>>): (r: Result<seq<Op>, HandlerError>)
    decreases |links|
    ensures r.Failure? <==> exists i :: 0 <= i < |links| && links[i].None?
    ensures r.Success? ==> HomeTargets(r.value, links)
  {
    if links == [] then Success([])
    else
      var init := links[..|links| - 1];
      var last := links[|links| - 1];
      match HomeOps(init)
      case Failure(e) => Failure(e)
      case Success(ops) =>
        match last
        case None => Failure(HrefMissing)
        case Some(h) =>
          HomeOpsStep(init, ops, h);
          assert links == init + [Some(h)];
          Success(ops + [HomeOp(h)])
  }

  /** `ops` enqueue the hrefs of a selection, one per element and in order,
      each normalised and tagged as a target of type `k`. */
  predicate NavigatesTo(ops: seq<Op>, hrefs: seq<Option<string>>, k: PageKind) {
    && |ops| == |hrefs|
    && forall i :: 0 <= i < |hrefs| ==>
      && RoutesTo(ops[i], k)
      && ops[i].request.url == NormalizeAttr(hrefs[i])
      && ops[i].request.userData == Navigation(k)
  }

  /** Operations enqueuing every href of a selection as a target of type
      `k`, in document order; a missing href is passed on as a missing url. */
  function NavigationOps(hrefs: seq<Option<string>>, k: PageKind): (ops: seq<Op>)
    decreases |hrefs|
    ensures NavigatesTo(ops, hrefs, k)
  {
    if hrefs == [] then []
    else
      var init, last := hrefs[..|hrefs| - 1], hrefs[|hrefs| - 1];
      NavigationOpsStep(init, NavigationOps(init, k), last, k);
      assert hrefs == init + [last];
      NavigationOps(init, k) + [AddRequest(Request(NormalizeAttr(last), Navigation(k)))]
  }

  /** Appending one href extends the navigation operations by its enqueue. */
  lemma NavigationOpsStep(init: seq<Option<string>>, ops: seq<Op>, href: Option<string>, k: PageKind)
    requires NavigatesTo(ops, init, k)
    ensures NavigatesTo(ops + [AddRequest(Request(NormalizeAttr(href), Navigation(k)))], init + [href], k)
  {
    var hrefs, r := init + [href], ops + [AddRequest(Request(NormalizeAttr(href), Navigation(k)))];
    forall i | 0 <= i < |hrefs|
      ensures && RoutesTo(r[i], k)
              && r[i].request.url == NormalizeAttr(hrefs[i])
              && r[i].request.userData == Navigation(k)
    {
      if i < |init| {
        assert hrefs[i] == init[i] && r[i] == ops[i];
      }
    }
  }

  // City pages

  /** The request enqueued for a hotel record: its own url, the record as
      `userData`, flagged as a hotel detail. */
  function HotelRequest(record: HotelRecord): Request {
    Request(record.url, UserData(FlagsFor(HotelDetail), Some(record)))
  }

  /** `ops` enqueue one hotel-detail target per anchor, in order, each
      carrying that anchor's record and its url. */
  predicate HotelTargets(ops: seq<Op>, anchors: seq<HotelAnchor>) {
    && |ops| == |anchors|
    && forall i :: 0 <= i < |anchors| ==>
      && RoutesTo(ops[i], HotelDetail)
      && ops[i].request.userData == UserData(FlagsFor(HotelDetail), Some(RecordOf(anchors[i])))
      && ops[i].request.url == RecordOf(anchors[i]).url
  }

  /** Appending one anchor extends the detail requests by that anchor's. */
  lemma HotelOpsStep(init: seq<HotelAnchor>, ops: seq<Op>, a: HotelAnchor)
    requires HotelTargets(ops, init)
    ensures HotelTargets(ops + [AddRequest(HotelRequest(RecordOf(a)))], init + [a])
  {
    var anchors, r := init + [a], ops + [AddRequest(HotelRequest(RecordOf(a)))];
    forall i | 0 <= i < |anchors|
      ensures && RoutesTo(r[i], HotelDetail)
              && r[i].request.userData == UserData(FlagsFor(HotelDetail), Some(RecordOf(anchors[i])))
              && r[i].request.url == RecordOf(anchors[i]).url
    {
      if i < |init| {
        assert anchors[i] == init[i] && r[i] == ops[i];
      }
    }
  }

  /** One detail request per hotel anchor, in document order. */
  function HotelOps(anchors: seq<HotelAnchor>): (ops: seq<Op>)
    decreases |anchors|
    ensures HotelTargets(ops, anchors)
  {
    if anchors == [] then []
    else
      var init, last := anchors[..|anchors| - 1], anchors[|anchors| - 1];
      HotelOpsStep(init, HotelOps(init), last);
      assert anchors == init + [last];
      HotelOps(init) + [AddRequest(HotelRequest(RecordOf(last)))]
  }

  /** The pagination entries the `li:not(.is-ellipsis)` selector keeps. */
  function Visible(items: seq<PaginationItem>): (r: seq<PaginationItem>)
    decreases |items|
    ensures forall i :: 0 <= i < |r| ==> !r[i].isEllipsis
    ensures forall i :: 0 <= i < |items| && !items[i].isEllipsis ==> items[i] in r
    ensures |r| <= |items|
  {
    if items == [] then []
    else
      var init, last := items[..|items| - 1], items[|items| - 1];
      assert items == init + [last];
      Visible(init) + (if last.isEllipsis then [] else [last])
  }

  /** The selector keeps every non-ellipsis entry as often as it occurs,
      and nothing else. */
  lemma {:induction false} VisibleKeepsEntries(items: seq<PaginationItem>, x: PaginationItem)
    decreases |items|
    ensures multiset(Visible(items))[x] == if x.isEllipsis then 0 else multiset(items)[x]
  {
    if items != [] {
      var init, last := items[..|items| - 1], items[|items| - 1];
      assert items == init + [last];
      VisibleKeepsEntries(init, x);
    }
  }

  /** The selector keeps document order: filtering a concatenation is
      concatenating the filtered parts. */
  lemma {:induction false} VisibleConcat(a: seq<PaginationItem>, b: seq<PaginationItem>)
    decreases |b|
    ensures Visible(a + b) == Visible(a) + Visible(b)
  {
    if b == [] {
      assert a + b == a;
    } else {
      var init, last := b[..|b| - 1], b[|b| - 1];
      assert (a + b)[..|a + b| - 1] == a + init;
      VisibleConcat(a, init);
    }
  }

  /** The operation for one visible pagination entry: `addRequest` when its
      href is truthy, an already-resolved promise otherwise. */
  function PaginationOp(item: PaginationItem): Op {
    if Truthy(item.href) then AddRequest(Request(Some(Normalize(item.href.value)), Navigation(City)))
    else Resolved
  }

  /** The city page's pagination operations: one per visible entry. */
  function CityPaginationOps(items: seq<PaginationItem>): (ops: seq<Op>)
    ensures |ops| == |Visible(items)|
    ensures forall i :: 0 <= i < |ops| ==>
      && (ops[i].Resolved? <==> !Truthy(Visible(items)[i].href))
      && (ops[i].AddRequest? ==> RoutesTo(ops[i], City))
  {
    var visible := Visible(items);
    seq(|visible|, i requires 0 <= i < |visible| => PaginationOp(visible[i]))
  }

  /** The requests among some operations, in order. */
  function Requests(ops: seq<Op>): seq<Request>
    decreases |ops|
  {
    if ops == [] then []
    else
      var last := ops[|ops| - 1];
      Requests(ops[..|ops| - 1]) + (if last.AddRequest? then [last.request] else [])
  }

  /** The urls a city page's pagination should enqueue: the normalised
      truthy hrefs of the non-ellipsis entries, in document order. */
  function PaginationTargets(items: seq<PaginationItem>): seq<string>
    decreases |items|
  {
    if items == [] then []
    else
      var last := items[|items| - 1];
      PaginationTargets(items[..|items| - 1])
        + (if !last.isEllipsis && Truthy(last.href) then [Normalize(last.href.value)] else [])
  }

  lemma RequestsAppend(ops: seq<Op>, more: seq<Op>)
    ensures Requests(ops + more) == Requests(ops) + Requests(more)
    decreases |more|
  {
    if more == [] {
      assert ops + more == ops;
    } else {
      var last := more[|more| - 1];
      assert ops + more == (ops + more[..|more| - 1]) + [last];
      assert (ops + more)[..|ops + more| - 1] == ops + more[..|more| - 1];
      RequestsAppend(ops, more[..|more| - 1]);
    }
  }

  /** The city page's pagination enqueues exactly the pagination targets,
      in order, each as a city page. */
  lemma {:induction false} CityPaginationEnqueuesTargets(items: seq<PaginationItem>)
    ensures |Requests(CityPaginationOps(items))| == |PaginationTargets(items)|
    ensures forall i :: 0 <= i < |PaginationTargets(items)| ==>
      Requests(CityPaginationOps(items))[i] == Request(Some(PaginationTargets(items)[i]), Navigation(City))
    decreases |items|
  {
    if items != [] {
      var init := items[..|items| - 1];
      var last := items[|items| - 1];
      CityPaginationEnqueuesTargets(init);
      var ops := CityPaginationOps(items);
      var initOps := CityPaginationOps(init);
      if last.isEllipsis {
        assert Visible(items) == Visible(init);
        assert ops == initOps;
      } else {
        assert Visible(items) == Visible(init) + [last];
        assert ops == initOps + [PaginationOp(last)];
        RequestsAppend(initOps, [PaginationOp(last)]);
        assert Requests([PaginationOp(last)]) == if Truthy(last.href) then [PaginationOp(last).request] else [];
      }
    }
  }

  // The handler

  /** `handlePageFunction`: the first flag set selects the handler; with no
      flag set nothing happens. */
  function HandlePage(data: UserData, dom: Dom): (r: Result<Effect, HandlerError>)
    ensures Classify(data.flags).None? ==> r == Success(Effect([], []))
    ensures r.Failure? <==>
      Classify(data.flags) == Some(HomePage) && exists i :: 0 <= i < |dom.worldwideLinks| && dom.worldwideLinks[i].None?
    ensures r.Success? ==> (r.value.pushed != [] <==> Classify(data.flags) == Some(HotelDetail))
    ensures Classify(data.flags) == Some(HotelDetail) ==> r == Success(Effect([], [data]))
    ensures Classify(data.flags) == Some(HomePage) && r.Success? ==>
      && |r.value.batches| == 1
      && HomeTargets(r.value.batches[0], dom.worldwideLinks)
    ensures Classify(data.flags) == Some(CountryList) ==>
      && r.Success? && |r.value.batches| == 1
      && NavigatesTo(r.value.batches[0], dom.countryListItems, Country)
    ensures Classify(data.flags) == Some(Country) ==>
      && r.Success? && |r.value.batches| == 2
      && NavigatesTo(r.value.batches[0], dom.topLocationLinks, City)
      && NavigatesTo(r.value.batches[1], dom.countryPaginationLinks, Country)
    ensures Classify(data.flags) == Some(City) ==>
      && r.Success? && |r.value.batches| == 2
      && HotelTargets(r.value.batches[0], dom.hotelAnchors)
      && r.value.batches[1] == CityPaginationOps(dom.cityPaginationItems)
  {
    match Classify(data.flags)
    case None => Success(Effect([], []))
    case Some(HomePage) =>
      (match HomeOps(dom.worldwideLinks)
       case Failure(e) => Failure(e)
       case Success(ops) => Success(Effect([ops], [])))
    case Some(CountryList) =>
      Success(Effect([NavigationOps(dom.countryListItems, Country)], []))
    case Some(Country) =>
      Success(Effect([NavigationOps(dom.topLocationLinks, City),
                      NavigationOps(dom.countryPaginationLinks, Country)], []))
    case Some(City) =>
      Success(Effect([HotelOps(dom.hotelAnchors), CityPaginationOps(dom.cityPaginationItems)], []))
    case Some(HotelDetail) =>
      Success(Effect([], [data]))
  }

  /** A city page enqueues one detail target per hotel anchor and then,
      in a second call, exactly the pagination targets, each as a city
      page. */
  lemma CityPageEnqueues(data: UserData, dom: Dom)
    requires Classify(data.flags) == Some(City)
    ensures var batches := HandlePage(data, dom).value.batches;
      && HotelTargets(batches[0], dom.hotelAnchors)
      && |Requests(batches[1])| == |PaginationTargets(dom.cityPaginationItems)|
      && forall i :: 0 <= i < |PaginationTargets(dom.cityPaginationItems)| ==>
        Requests(batches[1])[i] == Request(Some(PaginationTargets(dom.cityPaginationItems)[i]), Navigation(City))
  {
    CityPaginationEnqueuesTargets(dom.cityPaginationItems);
  }

  /** The detail request built for a hotel anchor is handled by pushing its
      `userData`, which holds that anchor's record, unchanged; nothing is
      enqueued. */
  lemma HotelDetailPushesRecord(a: HotelAnchor, dom: Dom)
    ensures var request := HotelRequest(RecordOf(a));
      && HandlePage(request.userData, dom) == Success(Effect([], [request.userData]))
      && request.userData.hotel == Some(RecordOf(a))
      && request.url == RecordOf(a).url
  {
  }

  /** The events of handling one page: the handler's `resolveInBatches`
      calls, each awaited before the next, and the records it pushes. */
  datatype PageRun = PageRun(trace: seq<Event<Op>>, calls: seq<seq<Event<Op>>>, pushed: seq<UserData>)

  /** `run` consists of two awaited `resolveInBatches` calls, the first of
      which runs exactly `first` and ends with its barrier on all of them
      before the second starts anything. */
  ghost predicate FirstCallAwaited(run: PageRun, first: seq<Op>) {
    && |run.calls| == 2
    && run.trace == run.calls[0] + run.calls[1]
    && Completes(run.calls[0], first, DefaultBatchLength)
  }

  /** Two calls whose events are concatenated, each completing its own
      batch, await the first batch before the second starts. */
  lemma TwoCallsAwaited(run: PageRun, batches: seq<seq<Op>>)
    requires |run.calls| == |batches| == 2
    requires run.trace == Flatten(run.calls)
    requires forall k :: 0 <= k < 2 ==> Completes(run.calls[k], batches[k], DefaultBatchLength)
    ensures FirstCallAwaited(run, batches[0])
    ensures Started(run.calls[1]) == batches[1]
  {
    var calls := run.calls;
    assert calls == [calls[0]] + [calls[1]] && [calls[0]] == [] + [calls[0]];
    FlattenSnoc([], calls[0]);
    FlattenSnoc([calls[0]], calls[1]);
    assert Completes(calls[0], batches[0], DefaultBatchLength);
    assert Completes(calls[1], batches[1], DefaultBatchLength);
  }

  /** Handles one page with the default batch length. On a country page
      every top-location target is started and awaited before any
      pagination target is started; on a city page every hotel-detail
      target is, before any pagination target. */
  method CrawlPage(data: UserData, dom: Dom) returns (r: Result<PageRun, HandlerError>)
    ensures r.Failure? <==> HandlePage(data, dom).Failure?
    ensures r.Success? ==>
      && Started(r.value.trace) == Flatten(HandlePage(data, dom).value.batches)
      && r.value.pushed == HandlePage(data, dom).value.pushed
    ensures Classify(data.flags).None? ==> r == Success(PageRun([], [], []))
    ensures r.Success? ==>
      && |r.value.calls| == |HandlePage(data, dom).value.batches|
      && forall k :: 0 <= k < |r.value.calls| ==>
        Completes(r.value.calls[k], HandlePage(data, dom).value.batches[k], DefaultBatchLength)
    ensures Classify(data.flags) == Some(Country) ==>
      && r.Success? && HandlePage(data, dom).Success?
      && |HandlePage(data, dom).value.batches| == 2
      && var batches := HandlePage(data, dom).value.batches;
      && FirstCallAwaited(r.value, batches[0])
      && Started(r.value.calls[1]) == batches[1]
      && NavigatesTo(batches[0], dom.topLocationLinks, City)
      && NavigatesTo(batches[1], dom.countryPaginationLinks, Country)
    ensures Classify(data.flags) == Some(City) ==>
      && r.Success? && HandlePage(data, dom).Success?
      && |HandlePage(data, dom).value.batches| == 2
      && var batches := HandlePage(data, dom).value.batches;
      && FirstCallAwaited(r.value, batches[0])
      && Started(r.value.calls[1]) == batches[1]
      && HotelTargets(batches[0], dom.hotelAnchors)
      && batches[1] == CityPaginationOps(dom.cityPaginationItems)
  {
    match HandlePage(data, dom)
    case Failure(e) =>
      r := Failure(e);
    case Success(effect) =>
      var trace, calls := RunBatches(effect.batches, DefaultBatchLength);
      var run := PageRun(trace, calls, effect.pushed);
      if |calls| == 2 {
        TwoCallsAwaited(run, effect.batches);
      }
      r := Success(run);
  }

  /** A home page with the worldwide links `/d-123` and `/europe` enqueues
      a city target and a country-list target, in that order. */
  lemma HomePageExample()
    ensures HandlePage(Navigation(HomePage), Dom([Some("/d-123"), Some("/europe")], [], [], [], [], []))
      == Success(Effect([[AddRequest(Request(Some("https://www.hrs.com/d-123"), Navigation(City))),
                          AddRequest(Request(Some("https://www.hrs.com/europe"), Navigation(CountryList)))]], []))
  {
    var links := [Some("/d-123"), Some("/europe")];
    var city := AddRequest(Request(Some("https://www.hrs.com/d-123"), Navigation(City)));
    var list := AddRequest(Request(Some("https://www.hrs.com/europe"), Navigation(CountryList)));
    assert HasAt("/d-123", 0, "/d-");
    assert !Contains("/europe", "/d-") by {
      var e := "/europe";
      forall i | 0 <= i <= 7 ensures !HasAt(e, i, "/d-") {
        if i + 3 <= 7 {
          assert e[i..i + 3][1] == e[i + 1];
          assert e[1] == 'e' && e[2] == 'u' && e[3] == 'r' && e[4] == 'o' && e[5] == 'p';
        }
      }
    }
    assert links[..1] == [Some("/d-123")] && links[..1][..0] == [];
    assert Normalize("/d-123") == "https://www.hrs.com/d-123";
    assert Normalize("/europe") == "https://www.hrs.com/europe";
    assert HomeTag("/d-123") == City && HomeTag("/europe") == CountryList;
    assert HomeOps(links[..1][..0]) == Success([]);
    assert HomeOps(links[..1]) == Success([] + [city]);
    assert links[..1] == links[..|links| - 1];
    assert list == AddRequest(Request(Some(Normalize("/europe")), Navigation(HomeTag("/europe"))));
    assert ([] + [city]) + [list] == [city, list];
    assert HomeOps(links) == Success(([] + [city]) + [list]);
  }

  /** A city page without hotel anchors or pagination entries enqueues
      nothing and pushes nothing. */
  lemma EmptyCityPageExample()
    ensures var r := HandlePage(Navigation(City), Dom([], [], [], [], [], []));
      r.Success? && Requests(Flatten(r.value.batches)) == [] && r.value.pushed == []
  {
    var r := HandlePage(Navigation(City), Dom([], [], [], [], [], []));
    assert r.value.batches == [[], []];
  }
}

=== FILE: dispatch.dfy ===
/** The flag dispatch at the top of `handlePageFunction`
    (src/index.js:22-23, 43, 55, 79, 128): the request's `userData` flags are
    checked in a fixed order and only the first one that is set selects a
    page handler. */
module Dispatch {
  import opened Wrappers

  /** The five page types the crawler knows. */
  datatype PageKind = HomePage | CountryList | Country | City | HotelDetail

  /** The flags a request's `userData` may carry. */
  datatype Flags = Flags(
    isHomePage: bool,
    isCountryList: bool,
    isCountry: bool,
    isCity: bool,
    isHotelDetail: bool)

  /** The flag that names page type `k`. */
  function Holds(f: Flags, k: PageKind): bool {
    match k
    case HomePage => f.isHomePage
    case CountryList => f.isCountryList
    case Country => f.isCountry
    case City => f.isCity
    case HotelDetail => f.isHotelDetail
  }

  /** The position of a page type in the if/else-if chain. */
  function Priority(k: PageKind): nat {
    match k
    case HomePage => 0
    case CountryList => 1
    case Country => 2
    case City => 3
    case HotelDetail => 4
  }

  /** The branch of the if/else-if chain that runs, or None when no flag is
      set and the handler does nothing. */
  function Classify(f: Flags): (r: Option<PageKind>)
    ensures r.None? <==> forall k: PageKind :: !Holds(f, k)
    ensures r.Some? ==> Holds(f, r.value)
    ensures r.Some? ==> forall k: PageKind :: Priority(k) < Priority(r.value) ==> !Holds(f, k)
  {
    assert Holds(f, HomePage) == f.isHomePage && Holds(f, CountryList) == f.isCountryList;
    assert Holds(f, Country) == f.isCountry && Holds(f, City) == f.isCity;
    assert Holds(f, HotelDetail) == f.isHotelDetail;
    if f.isHomePage then Some(HomePage)
    else if f.isCountryList then Some(CountryList)
    else if f.isCountry then Some(Country)
    else if f.isCity then Some(City)
    else if f.isHotelDetail then Some(HotelDetail)
    else None
  }

  /** The `userData` flags the crawler writes for a target of type `k`:
      exactly that one flag, so the target is handled as a page of type `k`. */
  function FlagsFor(k: PageKind): (f: Flags)
    ensures forall j: PageKind :: Holds(f, j) <==> j == k
    ensures Classify(f) == Some(k)
  {
    Flags(k == HomePage, k == CountryList, k == Country, k == City, k == HotelDetail)
  }

  /** Flags set below the first one do not change the branch taken. */
  lemma ClassifyIgnoresLowerFlags(f: Flags, g: Flags, k: PageKind)
    requires Classify(f) == Some(k)
    requires forall j: PageKind :: Priority(j) <= Priority(k) ==> (Holds(g, j) <==> Holds(f, j))
    ensures Classify(g) == Some(k)
  {
  }
}

=== FILE: fields.dfy ===
/** The string-pattern extractors that derive a hotel record's fields on a
    city page (src/index.js:87-88, 93, 95-99, 104). Each regular expression
    is modelled as the predicate "the pattern matches at position p" plus a
    leftmost search, which is how `String.prototype.match` without the `g`
    flag picks its match. */
module Fields {
  import opened Wrappers
  import opened Search

  /** `\d` in a JavaScript regular expression: an ASCII digit. */
  predicate IsDigit(c: char) {
    '0' <= c <= '9'
  }

  /** The class `[0-5.]` of the star-rating pattern. */
  predicate IsStarChar(c: char) {
    '0' <= c <= '5' || c == '.'
  }

  /** The class `[0-9.]` of the distance pattern. */
  predicate IsDistanceChar(c: char) {
    IsDigit(c) || c == '.'
  }

  /** The characters `.` does not match in a JavaScript regular expression. */
  predicate IsLineTerminator(c: char) {
    c == '\n' || c == '\r' || c == '\U{2028}' || c == '\U{2029}'
  }

  predicate AllDigits(d: string) {
    forall k :: 0 <= k < |d| ==> IsDigit(d[k])
  }

  /** `value || ''` for a string field that may be missing. */
  function OrEmpty(v: Option<string>): string {
    v.GetOr("")
  }

  /** A string value is truthy in JavaScript when present and non-empty. */
  predicate Truthy(v: Option<string>) {
    v.Some? && v.value != ""
  }

  /** `run` is a non-empty maximal run of `C`-characters starting at `p`. */
  predicate IsRun(s: string, p: nat, run: string, C: char -> bool) {
    && |run| > 0
    && p + |run| <= |s|
    && s[p..p + |run|] == run
    && (forall k :: 0 <= k < |run| ==> C(run[k]))
    && (p + |run| == |s| || !C(s[p + |run|]))
  }

  // addressPostalCode: `/\d{5}/`

  /** Five ASCII digits start at position `i`. */
  predicate FiveDigitsAt(s: string, i: nat) {
    i + 5 <= |s| && forall j :: i <= j < i + 5 ==> IsDigit(s[j])
  }

  /** The leftmost run of five digits in the address, absent when there is
      none or when the address is missing. */
  function PostalCode(address: Option<string>): (r: Option<string>)
    ensures r.None? <==> forall i: nat :: i <= |OrEmpty(address)| ==> !FiveDigitsAt(OrEmpty(address), i)
    ensures r.Some? ==> |r.value| == 5 && AllDigits(r.value)
    ensures r.Some? ==>
      exists i: nat :: FiveDigitsAt(OrEmpty(address), i)
        && (forall j: nat :: j < i ==> !FiveDigitsAt(OrEmpty(address), j))
        && r.value == OrEmpty(address)[i..i + 5]
  {
    var s := OrEmpty(address);
    var P := (i: nat) => FiveDigitsAt(s, i);
    var found := FirstFrom(P, 0, |s| + 1);
    assert found.Some? ==> P(found.value) && FiveDigitsAt(s, found.value);
    assert found.None? ==> forall i: nat :: i <= |s| ==> !FiveDigitsAt(s, i) by {
      if found.None? {
        forall i: nat | i <= |s| ensures !FiveDigitsAt(s, i) { assert !P(i); }
      }
    }
    match found
    case Some(i) =>
      assert forall j: nat :: j < i ==> !FiveDigitsAt(s, j) by {
        forall j: nat | j < i ensures !FiveDigitsAt(s, j) { assert !P(j); }
      }
      Some(s[i..i + 5])
    case None => None
  }

  // addressCity: `/(?<=\d{5}&nbsp;)(.*$)/`, falling back to the raw address

  /** The HTML entity text the address pattern looks behind for. */
  const Nbsp: string := "&nbsp;"

  /** The address pattern matches at `p`: five digits and `&nbsp;` end at
      `p`, and no line terminator follows (`.` does not match one and `$`
      is the end of the input). */
  predicate CityStartsAt(s: string, p: nat) {
    && 11 <= p <= |s|
    && FiveDigitsAt(s, p - 11)
    && s[p - 6..p] == Nbsp
    && forall j :: p <= j < |s| ==> !IsLineTerminator(s[j])
  }

  /** The rest of the address after the first match of the pattern, or the
      raw address (possibly missing) when it does not match. */
  function AddressCity(address: Option<string>): (r: Option<string>)
    ensures (forall p: nat :: p <= |OrEmpty(address)| ==> !CityStartsAt(OrEmpty(address), p)) ==> r == address
    ensures (exists p: nat :: p <= |OrEmpty(address)| && CityStartsAt(OrEmpty(address), p)) ==>
      exists p: nat :: CityStartsAt(OrEmpty(address), p)
        && (forall q: nat :: q < p ==> !CityStartsAt(OrEmpty(address), q))
        && r == Some(OrEmpty(address)[p..])
  {
    var s := OrEmpty(address);
    var P := (p: nat) => CityStartsAt(s, p);
    var found := FirstFrom(P, 0, |s| + 1);
    assert found.Some? ==> P(found.value) && CityStartsAt(s, found.value);
    assert found.None? ==> forall p: nat :: p <= |s| ==> !CityStartsAt(s, p) by {
      if found.None? {
        forall p: nat | p <= |s| ensures !CityStartsAt(s, p) { assert !P(p); }
      }
    }
    match found
    case Some(p) =>
      assert forall q: nat :: q < p ==> !CityStartsAt(s, q) by {
        forall q: nat | q < p ensures !CityStartsAt(s, q) { assert !P(q); }
      }
      Some(s[p..])
    case None => address
  }

  // starRating: `/(?<=sw-icon-stars-)([0-5.]+)/`

  /** The class-name prefix the star pattern looks behind for. */
  const StarMarker: string := "sw-icon-stars-"

  /** The star pattern matches at `p`. */
  predicate StarsAt(s: string, p: nat) {
    |StarMarker| <= p < |s| && s[p - |StarMarker|..p] == StarMarker && IsStarChar(s[p])
  }

  /** The maximal run of `[0-5.]` after the first `sw-icon-stars-` that is
      followed by one, absent when there is none. */
  function StarRating(classes: Option<string>): (r: Option<string>)
    ensures r.None? <==> forall p: nat :: p <= |OrEmpty(classes)| ==> !StarsAt(OrEmpty(classes), p)
    ensures r.Some? ==>
      exists p: nat :: StarsAt(OrEmpty(classes), p)
        && (forall q: nat :: q < p ==> !StarsAt(OrEmpty(classes), q))
        && IsRun(OrEmpty(classes), p, r.value, IsStarChar)
  {
    var s := OrEmpty(classes);
    var P := (p: nat) => StarsAt(s, p);
    var found := FirstFrom(P, 0, |s| + 1);
    assert found.Some? ==> P(found.value) && StarsAt(s, found.value);
    assert found.None? ==> forall p: nat :: p <= |s| ==> !StarsAt(s, p) by {
      if found.None? {
        forall p: nat | p <= |s| ensures !StarsAt(s, p) { assert !P(p); }
      }
    }
    match found
    case Some(p) =>
      assert forall q: nat :: q < p ==> !StarsAt(s, q) by {
        forall q: nat | q < p ensures !StarsAt(s, q) { assert !P(q); }
      }
      var e := RunEnd(s, p, IsStarChar);
      assert IsRun(s, p, s[p..e], IsStarChar);
      Some(s[p..e])
    case None => None
  }

  // cityDistance, airportDistance, trainStationDistance: `/(?<=\: )([0-9.]+ km)/`

  /** The distance pattern matches at `p`: `": "` ends at `p` and the
      maximal run of `[0-9.]` there is non-empty and followed by `" km"`
      (a shorter run would be followed by a digit or a dot, so backtracking
      cannot help). */
  predicate DistanceAt(s: string, p: nat) {
    && 2 <= p < |s|
    && s[p - 2..p] == ": "
    && IsDistanceChar(s[p])
    && HasAt(s, RunEnd(s, p, IsDistanceChar), " km")
  }

  /** The matched distance token, digits and dots followed by `" km"`; the
      float conversion applied to it is not modelled. */
  function DistanceToken(raw: Option<string>): (r: Option<string>)
    ensures r.None? <==> forall p: nat :: p <= |OrEmpty(raw)| ==> !DistanceAt(OrEmpty(raw), p)
    ensures r.Some? ==>
      exists p: nat, run: string :: DistanceAt(OrEmpty(raw), p)
        && (forall q: nat :: q < p ==> !DistanceAt(OrEmpty(raw), q))
        && IsRun(OrEmpty(raw), p, run, IsDistanceChar)
        && r.value == run + " km"
  {
    var s := OrEmpty(raw);
    var P := (p: nat) => DistanceAt(s, p);
    var found := FirstFrom(P, 0, |s| + 1);
    assert found.Some? ==> P(found.value) && DistanceAt(s, found.value);
    assert found.None? ==> forall p: nat :: p <= |s| ==> !DistanceAt(s, p) by {
      if found.None? {
        forall p: nat | p <= |s| ensures !DistanceAt(s, p) { assert !P(p); }
      }
    }
    match found
    case Some(p) =>
      assert forall q: nat :: q < p ==> !DistanceAt(s, q) by {
        forall q: nat | q < p ensures !DistanceAt(s, q) { assert !P(q); }
      }
      var e := RunEnd(s, p, IsDistanceChar);
      assert IsRun(s, p, s[p..e], IsDistanceChar);
      Some(s[p..e] + " km")
    case None => None
  }

  // reviewCount: the number read from the `/^\d+/` match, absent when there
  // is no match or it reads 0

  /** The longest prefix of `s` made of digits (`^` anchors at the start of
      the input). */
  function LeadingDigits(s: string): (d: string)
    ensures AllDigits(d)
    ensures |d| <= |s| && s[..|d|] == d
    ensures |d| == |s| || !IsDigit(s[|d|])
  {
    s[..RunEnd(s, 0, IsDigit)]
  }

  function DigitValue(c: char): nat
    requires IsDigit(c)
  {
    c as int - '0' as int
  }

  /** The value of a string of decimal digits (the empty string reads 0). */
  function DecimalValue(d: string): nat
    requires AllDigits(d)
    decreases |d|
  {
    if d == [] then 0 else 10 * DecimalValue(d[..|d| - 1]) + DigitValue(d[|d| - 1])
  }

  /** The review count: the value of the leading digits, absent when there
      are none and also when they read 0 (`0 || undefined`). The
      conversion is exact; float rounding of very long digit runs is not
      modelled. */
  function ReviewCount(raw: Option<string>): (r: Option<nat>)
    ensures r.Some? ==> r.value > 0
    ensures r.Some? <==> DecimalValue(LeadingDigits(OrEmpty(raw))) > 0
    ensures r.Some? ==> r.value == DecimalValue(LeadingDigits(OrEmpty(raw)))
    ensures LeadingDigits(OrEmpty(raw)) == "" ==> r.None?
  {
    var v := DecimalValue(LeadingDigits(OrEmpty(raw)));
    if v == 0 then None else Some(v)
  }

  // cleanName: the click-tracking name, or the hotel's name when that is falsy

  /** The click-tracking name when it is truthy, the hotel's name otherwise. */
  function CleanName(clickName: Option<string>, name: Option<string>): (r: Option<string>)
    ensures Truthy(clickName) ==> r == clickName
    ensures !Truthy(clickName) ==> r == name
    ensures Truthy(r) <==> Truthy(clickName) || Truthy(name)
  {
    if Truthy(clickName) then clickName else name
  }

  // Round trips: a field rendered the way the site renders it is read back.

  /** A maximal run at a position is unique. */
  lemma RunUnique(s: string, p: nat, r1: string, r2: string, C: char -> bool)
    requires IsRun(s, p, r1, C) && IsRun(s, p, r2, C)
    ensures r1 == r2
  {
    forall j | p <= j < p + |r1| ensures C(s[j]) {
      assert s[j] == s[p..p + |r1|][j - p] == r1[j - p];
    }
    forall j | p <= j < p + |r2| ensures C(s[j]) {
      assert s[j] == s[p..p + |r2|][j - p] == r2[j - p];
    }
  }

  /** An address written as five digits, `&nbsp;` and a one-line city name
      yields that postal code and that city. */
  lemma AddressRoundTrip(code: string, city: string)
    requires |code| == 5 && AllDigits(code)
    requires forall j :: 0 <= j < |city| ==> !IsLineTerminator(city[j])
    ensures PostalCode(Some(code + Nbsp + city)) == Some(code)
    ensures AddressCity(Some(code + Nbsp + city)) == Some(city)
  {
    var s := code + Nbsp + city;
    assert OrEmpty(Some(s)) == s;
    assert s[..5] == code && s[5..11] == Nbsp && s[11..] == city;
    assert FiveDigitsAt(s, 0);
    assert CityStartsAt(s, 11);
  }

  /** No character of the marker is a rating character. */
  lemma MarkerHasNoStarChar()
    ensures forall j :: 0 <= j < |StarMarker| ==> !IsStarChar(StarMarker[j])
  {
  }

  /** The star pattern cannot match before the marker that follows classes
      free of it. */
  lemma NoStarsBeforeMarker(prefix: string, t: string, q: nat)
    requires !Contains(prefix, StarMarker)
    requires q < |prefix| + |StarMarker|
    ensures !StarsAt(prefix + StarMarker + t, q)
  {
    var m := |StarMarker|;
    var s := prefix + StarMarker + t;
    if q <= |prefix| {
      if m <= q {
        assert s[q - m..q] == prefix[q - m..q];
        assert !HasAt(prefix, q - m, StarMarker);
      }
    } else {
      assert s[q] == StarMarker[q - |prefix|];
      MarkerHasNoStarChar();
    }
  }

  /** A class string with the marker `sw-icon-stars-` and a rating after
      some classes that do not contain the marker, followed by anything
      that does not continue the rating, yields that rating. */
  lemma StarRatingRoundTrip(prefix: string, rating: string, rest: string)
    requires !Contains(prefix, StarMarker)
    requires |rating| > 0 && forall k :: 0 <= k < |rating| ==> IsStarChar(rating[k])
    requires rest == [] || !IsStarChar(rest[0])
    ensures StarRating(Some(prefix + StarMarker + rating + rest)) == Some(rating)
  {
    var m := |StarMarker|;
    var n := |prefix| + m;
    var t := rating + rest;
    var s := prefix + StarMarker + t;
    assert s == prefix + StarMarker + rating + rest;
    assert s[..|prefix|] == prefix && s[|prefix|..n] == StarMarker && s[n..] == t;
    assert StarsAt(s, n) by {
      assert s[n - m..n] == StarMarker;
      assert s[n] == t[0] == rating[0];
    }
    assert IsRun(s, n, rating, IsStarChar) by {
      assert s[n..n + |rating|] == t[..|rating|] == rating;
      assert rest != [] ==> s[n + |rating|] == rest[0];
    }
    forall q: nat | q < n
      ensures !StarsAt(s, q)
    {
      NoStarsBeforeMarker(prefix, t, q);
    }
    var r := StarRating(Some(s));
    assert r.Some?;
    var p: nat :| StarsAt(s, p) && (forall q: nat :: q < p ==> !StarsAt(s, q)) && IsRun(s, p, r.value, IsStarChar);
    assert p == n;
    RunUnique(s, n, r.value, rating, IsStarChar);
  }

  /** A distance text `<caption>: <number> km`, with no colon in the caption,
      yields the token `<number> km`. */
  lemma DistanceRoundTrip(caption: string, number: string)
    requires forall k :: 0 <= k < |caption| ==> caption[k] != ':'
    requires |number| > 0 && forall k :: 0 <= k < |number| ==> IsDistanceChar(number[k])
    ensures DistanceToken(Some(caption + ": " + number + " km")) == Some(number + " km")
  {
    var s := caption + ": " + number + " km";
    var p0 := |caption| + 2;
    assert OrEmpty(Some(s)) == s;
    assert s[|caption|..p0] == ": " && s[p0..p0 + |number|] == number;
    assert s[p0 + |number|..] == " km";
    assert IsRun(s, p0, number, IsDistanceChar) by {
      assert s[p0 + |number|] == ' ';
    }
    var e := RunEnd(s, p0, IsDistanceChar);
    assert e == p0 + |number|;
    assert DistanceAt(s, p0);
    forall q: nat | q < p0 ensures !DistanceAt(s, q) {
      if 2 <= q { assert s[q - 2] == caption[q - 2]; }
    }
    var r := DistanceToken(Some(s));
    var p: nat, run: string :| DistanceAt(s, p) && (forall q: nat :: q < p ==> !DistanceAt(s, q))
      && IsRun(s, p, run, IsDistanceChar) && r.value == run + " km";
    assert p == p0;
    RunUnique(s, p0, run, number, IsDistanceChar);
  }

  /** With an ordinary space instead of the `&nbsp;` entity the city
      pattern does not match, so the city falls back to the whole address,
      while the postal code is still found. */
  lemma PlainSpaceAddressExample()
    ensures PostalCode(Some("12345 Springfield")) == Some("12345")
    ensures AddressCity(Some("12345 Springfield")) == Some("12345 Springfield")
  {
    var s := "12345 Springfield";
    assert OrEmpty(Some(s)) == s;
    assert FiveDigitsAt(s, 0);
    assert s[0..5] == "12345";
    forall p: nat | p <= |s| ensures !CityStartsAt(s, p) {
      if 11 <= p {
        assert s[p - 6..p][0] == s[p - 6];
        assert s[5] == ' ' && s[6] == 'S' && s[7] == 'p' && s[8] == 'r' && s[9] == 'i' && s[10] == 'n' && s[11] == 'g';
      }
    }
  }

  function DigitChar(n: nat): (c: char)
    requires n < 10
    ensures IsDigit(c) && DigitValue(c) == n
  {
    ('0' as int + n) as char
  }

  /** The decimal rendering of `n`, without leading zeros. */
  function ToDecimal(n: nat): (d: string)
    decreases n
    ensures |d| > 0 && AllDigits(d)
    ensures n > 0 ==> d[0] != '0'
  {
    if n < 10 then [DigitChar(n)] else ToDecimal(n / 10) + [DigitChar(n % 10)]
  }

  /** Reading a rendered number gives the number back. */
  lemma {:induction false} DecimalRoundTrip(n: nat)
    ensures DecimalValue(ToDecimal(n)) == n
  {
    if n >= 10 {
      var d := ToDecimal(n);
      assert d[..|d| - 1] == ToDecimal(n / 10);
      DecimalRoundTrip(n / 10);
    }
  }

  /** A review count rendered in decimal and followed by text that does not
      start with a digit reads back as that count. */
  lemma ReviewCountRoundTrip(n: nat, rest: string)
    requires n > 0
    requires rest == [] || !IsDigit(rest[0])
    ensures ReviewCount(Some(ToDecimal(n) + rest)) == Some(n)
  {
    var d := ToDecimal(n);
    var s := d + rest;
    assert OrEmpty(Some(s)) == s;
    var l := LeadingDigits(s);
    assert forall k :: 0 <= k < |d| ==> IsDigit(s[k]);
    assert forall k :: 0 <= k < |l| ==> IsDigit(s[k]);
    assert rest != [] ==> s[|d|] == rest[0];
    assert l == s[..|d|] == d;
    DecimalRoundTrip(n);
  }
}

=== FILE: hotel.dfy ===
/** The hotel record the city-page handler builds for each hotel anchor
    (src/index.js:83-111). The two JSON attributes of the anchor are taken
    as already parsed. */
module Hotel {
  import opened Wrappers
  import opened Url
  import opened Fields
  import opened Search

  /** The parsed `data-gtm-click` attribute (`{}` when it is missing). */
  datatype GtmInfo = GtmInfo(elementClickName: Option<string>)

  /** The parsed `data-hotel-item` attribute (`{}` when it is missing),
      restricted to the fields the record derives something from. */
  datatype HotelItem = HotelItem(
    id: Option<string>,
    name: Option<string>,
    address: Option<string>,
    cityDistance: Option<string>,
    airportDistance: Option<string>,
    trainStationDistance: Option<string>,
    ratingCount: Option<string>)

  /** One `div.sw-hotel-list > a.sw-hotel-list__link` element: its two data
      attributes, its href and the class string of its star-rating div. */
  datatype HotelAnchor = HotelAnchor(
    gtm: GtmInfo,
    item: HotelItem,
    href: Option<string>,
    ratingClass: Option<string>)

  /** The record stored as the detail request's `userData` and pushed by
      the detail handler. */
  datatype HotelRecord = HotelRecord(
    hrsId: Option<string>,
    name: Option<string>,
    cleanName: Option<string>,
    addressPostalCode: Option<string>,
    addressCity: Option<string>,
    cityDistance: Option<string>,
    airportDistance: Option<string>,
    trainStationDistance: Option<string>,
    reviewCount: Option<nat>,
    starRating: Option<string>,
    url: Option<string>)

  /** The class the rating selector `div.sw-hotel__rating` requires, as it
      precedes the star class in the attribute. */
  const RatingClass: string := "sw-hotel__rating "

  /** The record built from one hotel anchor. */
  function RecordOf(a: HotelAnchor): (r: HotelRecord)
    ensures r.hrsId == a.item.id && r.name == a.item.name
    ensures r.url.Some? <==> a.href.Some?
    ensures r.url.Some? ==> !IsRootRelative(r.url.value)
    ensures r.url == NormalizeAttr(a.href)
    ensures Truthy(r.cleanName) <==> Truthy(a.gtm.elementClickName) || Truthy(a.item.name)
    ensures r.addressPostalCode.Some? ==> |r.addressPostalCode.value| == 5 && AllDigits(r.addressPostalCode.value)
    ensures r.addressCity.None? ==> a.item.address.None?
    ensures r.reviewCount.Some? ==> r.reviewCount.value > 0
    ensures r.starRating.Some? ==> |r.starRating.value| > 0
    ensures r.cleanName == CleanName(a.gtm.elementClickName, a.item.name)
    ensures r.addressPostalCode == PostalCode(a.item.address)
    ensures r.addressCity == AddressCity(a.item.address)
    ensures r.cityDistance == DistanceToken(a.item.cityDistance)
    ensures r.airportDistance == DistanceToken(a.item.airportDistance)
    ensures r.trainStationDistance == DistanceToken(a.item.trainStationDistance)
    ensures r.reviewCount == ReviewCount(a.item.ratingCount)
    ensures r.starRating == StarRating(a.ratingClass)
  {
    var starRating := StarRating(a.ratingClass);
    assert starRating.Some? ==> |starRating.value| > 0;
    var city := AddressCity(a.item.address);
    assert city.None? ==> a.item.address.None?;
    HotelRecord(
      hrsId := a.item.id,
      name := a.item.name,
      cleanName := CleanName(a.gtm.elementClickName, a.item.name),
      addressPostalCode := PostalCode(a.item.address),
      addressCity := city,
      cityDistance := DistanceToken(a.item.cityDistance),
      airportDistance := DistanceToken(a.item.airportDistance),
      trainStationDistance := DistanceToken(a.item.trainStationDistance),
      reviewCount := ReviewCount(a.item.ratingCount),
      starRating := starRating,
      url := NormalizeAttr(a.href))
  }

  /** An anchor whose fields are rendered the way the site renders them
      yields the rendered values back in its record. */
  lemma RecordReadsRenderedAnchor(a: HotelAnchor, code: string, city: string, classes: string, rating: string, count: nat)
    requires |code| == 5 && AllDigits(code)
    requires forall j :: 0 <= j < |city| ==> !IsLineTerminator(city[j])
    requires |rating| > 0 && forall k :: 0 <= k < |rating| ==> IsStarChar(rating[k])
    requires count > 0
    requires a.item.address == Some(code + Nbsp + city)
    requires !Contains(classes, StarMarker)
    requires a.ratingClass == Some(classes + StarMarker + rating)
    requires a.item.ratingCount == Some(ToDecimal(count) + " reviews")
    ensures RecordOf(a).addressPostalCode == Some(code)
    ensures RecordOf(a).addressCity == Some(city)
    ensures RecordOf(a).starRating == Some(rating)
    ensures RecordOf(a).reviewCount == Some(count)
  {
    AddressRoundTrip(code, city);
    StarRatingRoundTrip(classes, rating, "");
    assert classes + StarMarker + rating + "" == classes + StarMarker + rating;
    ReviewCountRoundTrip(count, " reviews");
  }

  /** `raw` is a distance the way the site writes it: a caption without a
      colon, `": "`, a number of digits and dots, and `" km"`. */
  predicate RenderedDistance(raw: Option<string>, caption: string, number: string) {
    && raw == Some(caption + ": " + number + " km")
    && (forall k :: 0 <= k < |caption| ==> caption[k] != ':')
    && |number| > 0 && (forall k :: 0 <= k < |number| ==> IsDistanceChar(number[k]))
  }

  /** Each of the three rendered distances lands, as its `<number> km`
      token, in the field of the same name, and a truthy click-tracking
      name becomes the clean name. */
  lemma RecordReadsRenderedDistances(a: HotelAnchor, c1: string, n1: string, c2: string, n2: string, c3: string, n3: string)
    requires RenderedDistance(a.item.cityDistance, c1, n1)
    requires RenderedDistance(a.item.airportDistance, c2, n2)
    requires RenderedDistance(a.item.trainStationDistance, c3, n3)
    ensures RecordOf(a).cityDistance == Some(n1 + " km")
    ensures RecordOf(a).airportDistance == Some(n2 + " km")
    ensures RecordOf(a).trainStationDistance == Some(n3 + " km")
    ensures Truthy(a.gtm.elementClickName) ==> RecordOf(a).cleanName == a.gtm.elementClickName
    ensures !Truthy(a.gtm.elementClickName) ==> RecordOf(a).cleanName == a.item.name
  {
    DistanceRoundTrip(c1, n1);
    DistanceRoundTrip(c2, n2);
    DistanceRoundTrip(c3, n3);
  }

  /** The class the rating selector requires does not contain the star
      marker. */
  lemma RatingClassFreeOfMarker()
    ensures !Contains(RatingClass, StarMarker)
  {
    var c := RatingClass;
    assert |c| == 17 && |StarMarker| == 14;
    assert c[3] != StarMarker[3];
    forall i | 0 <= i <= |c| ensures !HasAt(c, i, StarMarker) {
      if i == 0 {
        assert c[0..14][3] == c[3];
      } else if i <= 3 {
        assert c[i..i + 14][0] == c[i] != StarMarker[0];
      }
    }
  }

  /** The rating element carries the class `sw-hotel__rating` (the selector
      requires it) before its star class; the rating is still read. */
  lemma RatingClassExample()
    ensures StarRating(Some(RatingClass + StarMarker + "4.5")) == Some("4.5")
  {
    RatingClassFreeOfMarker();
    StarRatingRoundTrip(RatingClass, "4.5", "");
    assert RatingClass + StarMarker + "4.5" + "" == RatingClass + StarMarker + "4.5";
  }
}

=== FILE: search.dfy ===
/** Scanning helpers shared by the URL tagging rules and the field
    extractors: leftmost search, maximal runs and substring occurrence. */
module Search {
  import opened Wrappers

  /** The least position in [from, bound) at which `P` holds, if any. This is
      how a regular-expression search picks its leftmost match. */
  function FirstFrom(P: nat -> bool, from: nat, bound: nat): (r: Option<nat>)
    decreases bound - from
    ensures r.Some? ==> from <= r.value < bound && P(r.value)
    ensures r.Some? ==> forall j :: from <= j < r.value ==> !P(j)
    ensures r.None? ==> forall j :: from <= j < bound ==> !P(j)
  {
    if from >= bound then None
    else if P(from) then Some(from)
    else FirstFrom(P, from + 1, bound)
  }

  /** The end of the longest run of characters satisfying `C` that starts at
      `p`: what a greedy `[...]*` consumes. */
  function RunEnd(s: string, p: nat, C: char -> bool): (e: nat)
    requires p <= |s|
    decreases |s| - p
    ensures p <= e <= |s|
    ensures forall j :: p <= j < e ==> C(s[j])
    ensures e == |s| || !C(s[e])
  {
    if p == |s| || !C(s[p]) then p else RunEnd(s, p + 1, C)
  }

  /** `t` occurs in `s` starting at position `i`. */
  predicate HasAt(s: string, i: nat, t: string) {
    i + |t| <= |s| && s[i..i + |t|] == t
  }

  /** JavaScript's `s.includes(t)`. */
  function Contains(s: string, t: string): (b: bool)
    ensures b <==> exists i :: 0 <= i <= |s| && HasAt(s, i, t)
  {
    var P := (i: nat) => HasAt(s, i, t);
    var r := FirstFrom(P, 0, |s| + 1);
    assert r.Some? ==> HasAt(s, r.value, t);
    assert r.None? ==> forall i: nat :: i <= |s| ==> !HasAt(s, i, t) by {
      if r.None? {
        forall i: nat | i <= |s| ensures !HasAt(s, i, t) { assert !P(i); }
      }
    }
    r.Some?
  }
}

=== FILE: url.dfy ===
/** The inline URL normalisation the crawler applies to every discovered
    href: an href matching `/^\//` gets the site origin in front, any other
    string is kept as it is. */
module Url {
  import opened Wrappers

  /** The site origin prepended to root-relative links. */
  const Origin: string := "https://www.hrs.com"

  /** The href starts with `/`. */
  predicate IsRootRelative(href: string) {
    |href| > 0 && href[0] == '/'
  }

  /** Root-relative links become absolute links on the site; every other
      string passes through. */
  function Normalize(href: string): (r: string)
    ensures !IsRootRelative(r)
    ensures |href| <= |r| && r[|r| - |href|..] == href
    ensures r == href <==> !IsRootRelative(href)
    ensures r != href ==> |r| == |Origin| + |href| && r[..|Origin|] == Origin
  {
    if IsRootRelative(href) then Origin + href else href
  }

  /** Normalising twice is normalising once. */
  lemma NormalizeIdempotent(href: string)
    ensures Normalize(Normalize(href)) == Normalize(href)
  {
  }

  /** The expression applied to an attribute that may be missing: the regular
      expression test of `undefined` fails, so a missing href stays missing. */
  function NormalizeAttr(href: Option<string>): (r: Option<string>)
    ensures r.Some? <==> href.Some?
    ensures r.Some? ==> !IsRootRelative(r.value)
    ensures href.Some? ==> r == Some(Normalize(href.value))
  {
    match href
    case Some(h) => Some(Normalize(h))
    case None => None
  }
}

=== FILE: wrappers.dfy ===
/** Optional values and results with an error, the way the crawler's
    JavaScript uses `undefined` and thrown errors. */
module Wrappers {

  /** A value that may be absent (`undefined` in the source). */
  datatype Option<+T> = None | Some(value: T) {

    /** The encapsulated value, or `default` when absent. */
    function GetOr(default: T): T {
      match this
      case Some(v) => v
      case None => default
    }
  }

  /** The outcome of a step that may throw. */
  datatype Result<+R, +E> = Success(value: R) | Failure(error: E)
}
